=== FILE: README.md ===
# GTD task store, modelled in Dafny

The app is a three-screen "capture, process, organize" task manager for mobile. All of
its logic sits in one in-memory store. The store holds a list of tasks, a list
of projects and a fixed list of context labels. The screens operate on it:

- The **Inbox** adds typed tasks and deletes rows. It also processes a task,
  either into a project (an existing one, or one created on the spot) or into
  a next action with a context.
- **Next Actions** lists next-action tasks under a context chip and a project
  chip, and toggles completion.
- **Projects** shows each project's task count, completed count and rounded
  percentage.

The model is functional. Every store operation maps the old `Store` to the new
one. Every task list a screen shows (the inbox, the next actions, a
project's tasks) is an order-preserving filter of the task list, and the
Projects screen shows one card per project, in project order.

| file | module | what it holds |
|---|---|---|
| `text.dfy` | `Text` | `String.prototype.trim` over the ECMAScript whitespace and line-terminator characters |
| `seqs.dfy` | `Seqs` | the order-preserving `Filter` and its algebra: concatenation, composition, commutation |
| `model.dfy` | `Model` | `Task`, `Project`, `Status`, the update object `Patch`, the shallow merge, and `Store` |
| `store.dfy` | `TaskStore` | `addTask`, `updateTask`, `deleteTask`, `addProject`, plus the inbox, next-action and project lists and the progress percentage |
| `screens.dfy` | `Screens` | the handlers: add a trimmed title, move to a project, make a next action, create a project and move the task into it, toggle completion |
| `workflow.dfy` | `Workflow` | the screens as a state machine, plus invariants of every store reachable from the seeded one |

Ids and timestamps come from the clock in the app (`Date.now().toString()`
and `toISOString()`). Here they are parameters. The invariant lemmas and the
workflow's `Enabled` predicate assume a fresh id: no task or project already
uses it. The store operations demand nothing, just as the source does not.

`addTask` and `addProject` store the text exactly as given, and neither
checks it. The trimming and the empty-text check happen in `handleAddTask` and
`handleCreateNewProject` (App.js:157-162, 187-195).

One consequence is worth spelling out (`Workflow.Reachable`). Tasks can only
be processed from inbox rows. Completion can only be toggled from next-action
rows. So in every reachable store:

- no next action carries a project id, and selecting a project chip on Next
  Actions always gives an empty list;
- no project task is ever completed, so every project card shows 0%.

The code as written does exactly this, and it is not clear what was intended.
It is therefore stated as a proved property, not as a defect.

## Model

| member | source | states |
|---|---|---|
| Text.Trim | App.js:158-159 | the trimmed title is the slice of the input left after whitespace-only runs are cut from both ends; it is empty exactly when the input is all whitespace, and otherwise starts and ends with non-whitespace |
| Text.TrimIdempotent | App.js:158-159 | trimming an already trimmed text changes nothing |
| Text.TrimPadded | App.js:158-159 | whitespace around a text whose ends are not whitespace is exactly what trim removes |
| Seqs.Filter | App.js:82 | an array filter keeps exactly the elements that pass the test and never grows the list |
| Seqs.FilterAppend | App.js:155 | filtering distributes over concatenation, so every list keeps the task list's insertion order |
| Seqs.FilterFilter | App.js:363-369 | two filters in a row are one filter asking both questions |
| Seqs.FilterCommute | App.js:365-369 | the order in which two filters are applied does not matter |
| Seqs.FilterKeepsAll | App.js:82 | a filter leaves a list unchanged exactly when every element passes |
| Model.Merge | App.js:77 | `{ ...task, ...updates }`: present fields override, absent ones stay, id and createdAt never change |
| Model.MergeNoChange | App.js:77 | an empty update object leaves the task as it is |
| Model.MergeIdempotent | App.js:77 | merging the same update twice equals merging it once |
| Model.MergeThen | App.js:75-79 | two successive merges equal one merge of the combined update, with later fields winning |
| TaskStore.AddTask | App.js:62-73 | exactly one task is appended; it has the given id and title, status inbox, no context, no project and is not completed; earlier tasks and all projects are unchanged |
| TaskStore.AddTaskKeepsValid | App.js:62-73 | with a fresh id, task ids stay unique |
| TaskStore.AddTaskShowsInInbox | App.js:155 | after an add, the inbox list is the old inbox with the new task at its end |
| TaskStore.UpdateMatching | App.js:76-78 | the map keeps length; a task with the id becomes its merge with the update, and every other task is unchanged |
| TaskStore.UpdateTask | App.js:75-79 | the update keeps length, order and every id; only tasks with the given id are merged; projects are untouched |
| TaskStore.UpdateTaskMissing | App.js:75-79 | an id no task carries leaves the store unchanged |
| TaskStore.UpdateTaskKeepsValid | App.js:75-79 | updates preserve unique task ids |
| TaskStore.UpdateTaskThen | App.js:75-79 | two updates of one id equal one update with the combined fields |
| TaskStore.DeleteTask | App.js:81-83 | exactly the tasks with another id remain and none with the id; projects are untouched |
| TaskStore.DeleteTaskMissing | App.js:81-83 | deleting an id no task carries leaves the store unchanged |
| TaskStore.DeleteTaskRemovesOne | App.js:81-83 | with unique ids, deleting the task at index k cuts exactly that entry and shortens the list by one |
| TaskStore.FilterKeepsUniqueIds | App.js:82 | filtering a list with unique ids gives a list with unique ids |
| TaskStore.DeleteTaskKeepsValid | App.js:81-83 | deletes preserve unique task ids |
| TaskStore.DeleteTaskFromViews | App.js:81-83 | a deleted task leaves the inbox, the filtered next actions and every project list; the rest of each list keeps its order |
| TaskStore.AddProject | App.js:85-94 | exactly one project with the given id, name and description is appended; the returned id is that id; tasks are untouched |
| TaskStore.AddProjectKeepsValid | App.js:85-94 | with a fresh id, project ids stay unique |
| TaskStore.InboxTasks | App.js:155 | the inbox holds exactly the tasks with status inbox |
| TaskStore.NextActionTasks | App.js:363 | this list holds exactly the tasks with status next-action |
| TaskStore.FilteredNextActions | App.js:365-369 | a task is listed exactly when it is a next action, passes the context chip ('all' or equal context) and passes the project chip ('all' or equal project id) |
| TaskStore.FilteredNextActionsOnePass | App.js:363-369 | the two-stage filter is a single in-order filter with the three tests ANDed |
| TaskStore.FilteredNextActionsAll | App.js:363-369 | with both chips on 'all' the list is every next-action task |
| TaskStore.FilteredNextActionsConjunction | App.js:365-369 | the context chip and the project chip combine by AND, in either order |
| TaskStore.ProjectTasks | App.js:509-511 | a project's list holds exactly the tasks whose projectId is that project |
| TaskStore.CompletedCount | App.js:516 | the completed count is at most the task count; it equals the task count exactly when all are completed, and is 0 exactly when none is |
| TaskStore.CompletedCountIsFilterLength | App.js:516 | the count equals the length of the completed-filtered list |
| TaskStore.RoundPercent | App.js:517 | the percentage is 100c/n rounded to the nearest integer, halves rounding up, and never above 100 |
| TaskStore.RoundPercentMonotone | App.js:517 | more completed tasks never lower the percentage |
| TaskStore.ProgressOneOfThree | App.js:517 | one of three completed shows 33 |
| TaskStore.Progress | App.js:513-518 | progress is 0 when no task references the project; otherwise it is the rounded completed share; it is always between 0 and 100 |
| TaskStore.ProgressHundred | App.js:513-518 | progress is 100 exactly when some task references the project and at least 99.5% of those tasks are completed |
| TaskStore.ProgressAllCompleted | App.js:513-518 | all referencing tasks completed gives 100 |
| TaskStore.ProgressNoneCompleted | App.js:513-518 | no referencing task completed gives 0 |
| TaskStore.RowFor | App.js:533-554 | a project card shows the number of tasks referencing the project, the number of those completed (`.filter(t => t.completed).length`) and the rounded percentage; the numbers agree: 0% with no tasks or none done, 100% with all done |
| TaskStore.ProjectRows | App.js:530-554 | the Projects screen has one card per project, in project order; card i shows project i's referencing-task count, its completed count and its progress, at most 100% |
| Screens.HandleAddTask | App.js:157-162 | an all-whitespace title leaves the store unchanged; otherwise the handler is `addTask` of the trimmed title: one inbox task with the trimmed title, the fresh id, no context, no project, not completed, is appended |
| Screens.HandleAddTaskTitleIsTrimmed | App.js:157-162 | a stored title is non-empty and has no whitespace at either end |
| Screens.HandleMoveToProject | App.js:169-176 | the selected task gets status project and the project id and keeps its other fields; nothing else changes; it is gone from the inbox |
| Screens.HandleMakeNextAction | App.js:178-185 | the selected task gets status next-action and the context and keeps its other fields; it is gone from the inbox and listed under the chips (context, 'all') |
| Screens.LeavingInbox | App.js:155 | an update that sets a status other than inbox removes exactly the tasks with that id from the inbox list and keeps the rest of the inbox in order |
| Screens.MoveToProjectLeavesInbox | App.js:169-176 | after a move, the inbox is the old inbox without the selected task |
| Screens.MakeNextActionLeavesInbox | App.js:178-185 | after making a next action, the inbox is the old inbox without the selected task |
| Screens.HandleCreateNewProject | App.js:187-195 | an all-whitespace name changes nothing; otherwise one project with the trimmed name and description is appended and the selected task is moved into it |
| Screens.CreateNewProjectMovesOne | App.js:187-195 | with unique ids, create-and-move changes the selected row's task and no other |
| Screens.Find | App.js:372 | `find` returns the first index with the id, or none exactly when no task has it |
| Screens.ToggleTaskComplete | App.js:371-374 | every task with the id gets the negation of the first such task's flag; nothing else changes |
| Screens.ToggleFlipsOne | App.js:371-374 | with unique ids, toggling flips exactly that task's completed flag and changes nothing else |
| Screens.ToggleKeepsValid | App.js:371-374 | toggling preserves unique ids and the task it toggled |
| Screens.ToggleTwice | App.js:371-374 | with unique ids, toggling twice restores the store |
| Workflow.Seed | App.js:30-59 | the seeded store has one inbox task, one next action under '@phone', one project no task references and five context labels, and satisfies the invariant |
| Workflow.EnabledOnListedRows | App.js:229-348 | Delete and Process are offered exactly on tasks the inbox lists; the process modal offers exactly the listed projects and context labels; Create & Move is offered exactly for a listed inbox task and an id no project carries; a task can be ticked exactly when the Next Actions list under the 'all' chips shows it |
| Workflow.InboxRowListed | App.js:229-237 | a task has Process and Delete buttons exactly when the inbox list shows a row with its id |
| Workflow.NextActionRowListed | App.js:461-467 | a task is tickable exactly when the Next Actions list under the 'all' chips shows it |
| Workflow.Step | App.js:157-195 | one offered tap applies the matching handler; no tap edits or deletes a project or a context label, and only creating a project adds one, at the end |
| Workflow.UpdateOneKeepsGood | App.js:75-79 | an update of one task keeps the store good when the merged task is consistent and its reference resolves |
| Workflow.AddTypedKeepsGood | App.js:157-162 | adding a typed task with a fresh id keeps the store good |
| Workflow.DeleteKeepsGood | App.js:237 | deleting an inbox row keeps the store good |
| Workflow.MoveKeepsGood | App.js:272 | moving an inbox task to a listed project keeps the store good |
| Workflow.MakeNextKeepsGood | App.js:292 | making an inbox task a next action keeps the store good |
| Workflow.CreateAndMoveKeepsGood | App.js:345 | create-and-move with a fresh project id keeps the store good |
| Workflow.TickKeepsGood | App.js:467 | toggling a next-action row keeps the store good |
| Workflow.StepKeepsGood | App.js:212-467 | every tap the screens offer keeps the store good |
| Workflow.RunKeepsGood | App.js:212-467 | any session of taps keeps a good store good |
| Workflow.ProjectChipSelectsNothing | App.js:365-369 | in a good store, the Next Actions list under any project chip is empty |
| Workflow.ProgressStaysZero | App.js:513-518 | in a good store, every project shows 0% |
| Workflow.Reachable | App.js:25-60 | from the seeded store, any session of taps leads to a good store in which the project chip empties Next Actions and every project shows 0% |
| Workflow.FreshProjectUnreferenced | App.js:85-94 | a project id no project carries is referenced by no task in a good store |
| Workflow.CreatedProjectHoldsOneTask | App.js:187-195 | after create-and-move, the new project's task list is exactly the moved task |
| Workflow.CreateAndMoveCard | App.js:530-554 | after create-and-move, the selected task is out of the inbox and the new project's card shows 1 task, 0 completed, 0% |

## Left out

- React rendering, `FlatList`/`Modal`/`TextInput`, the tab and stack navigators and the style sheet (App.js:96-143, 197-355, 381-503, 520-1027) are presentation, not store logic.
- `useState` setters, stale closures, update batching and the `useEffect` seeding (App.js:25-60) are left out. They are framework scheduling. The seeded content appears as the fixed store `Workflow.Seed`.
- `Date.now().toString()` ids and `new Date().toISOString()` timestamps are clock calls. They are parameters here, and `createdAt` is an opaque string.
- TaskStore.RoundPercent: computes `Math.round` of `c / n * 100` exactly in integers, as `(200c + n) / (2n)`, not with IEEE doubles. Where the double quotient lands just below or above a .5 tie, the app's result can differ by one.
- The update object `Patch` has no `id` or `createdAt` field. The JavaScript spread would let an update object overwrite them, but no caller ever passes those keys.
- The `Selector` type models the `'all'` chip as its own constructor, not as the string `'all'`. The two differ only for a context label or project id that is literally `all`, and the app has none.
- Screens.ToggleTaskComplete: requires that a task with the id exists. The source reads `find`'s result without a check and would throw otherwise.
- The screens' local UI state is not modelled. This covers `handleProcessTask` opening the modal, clearing the text inputs and closing the modals. The selected task is passed to the handlers as its id.
- `getProjectName`'s "No Project" label, the locale date on project cards and the header counts are display only.
- The workflow's `Enabled` predicate does not model the stale `selectedTask` object. It is the inbox row the user tapped, and it does not change while the process modal is open.

=== FILE: model.dfy ===
/** The records the app keeps in memory: tasks, projects and the store that
    holds them, and the shallow merge `{ ...task, ...updates }` that
    `updateTask` applies to a task. */
module Model {

  datatype Option<T> = None | Some(value: T)

  /** Task and project ids are opaque strings handed out by the caller's
      id source; `createdAt` is an opaque timestamp string. */
  type Id = string

  /** Which screen surfaces a task: 'inbox', 'next-action' or 'project'. */
  datatype Status = Inbox | NextAction | InProject

  datatype Task = Task(
    id: Id,
    title: string,
    status: Status,
    context: Option<string>,
    projectId: Option<Id>,
    completed: bool,
    createdAt: string)

  datatype Project = Project(id: Id, name: string, description: string, createdAt: string)

  /** One field of an update object: absent (`Keep`) or present with a value. */
  datatype Field<T> = Keep | Set(value: T)
  {
    /** The field's value after the merge: the update's value when present. */
    function Over(current: T): T {
      match this
      case Keep => current
      case Set(v) => v
    }
  }

  /** The fields an update object may carry. The app's callers only ever
      pass `status`, `context`, `projectId` and `completed`; `title` is kept
      for completeness of the shallow merge. Identity (`id`) and `createdAt`
      are never passed. */
  datatype Patch = Patch(
    title: Field<string>,
    status: Field<Status>,
    context: Field<Option<string>>,
    projectId: Field<Option<Id>>,
    completed: Field<bool>)

  const NoChange := Patch(Keep, Keep, Keep, Keep, Keep)

  /** `{ ...t, ...p }`: every field present in `p` overrides the task's,
      every absent one is left as it was, and identity never changes. */
  function Merge(t: Task, p: Patch): (r: Task)
    ensures r.id == t.id && r.createdAt == t.createdAt
    ensures p.title.Keep? ==> r.title == t.title
    ensures p.title.Set? ==> r.title == p.title.value
    ensures p.status.Keep? ==> r.status == t.status
    ensures p.status.Set? ==> r.status == p.status.value
    ensures p.context.Keep? ==> r.context == t.context
    ensures p.context.Set? ==> r.context == p.context.value
    ensures p.projectId.Keep? ==> r.projectId == t.projectId
    ensures p.projectId.Set? ==> r.projectId == p.projectId.value
    ensures p.completed.Keep? ==> r.completed == t.completed
    ensures p.completed.Set? ==> r.completed == p.completed.value
  {
    t.(title := p.title.Over(t.title),
       status := p.status.Over(t.status),
       context := p.context.Over(t.context),
       projectId := p.projectId.Over(t.projectId),
       completed := p.completed.Over(t.completed))
  }

  /** `{ ...p, ...q }`: the update that applying `p` and then `q` amounts to. */
  function Then(p: Patch, q: Patch): Patch {
    Patch(
      if q.title.Set? then q.title else p.title,
      if q.status.Set? then q.status else p.status,
      if q.context.Set? then q.context else p.context,
      if q.projectId.Set? then q.projectId else p.projectId,
      if q.completed.Set? then q.completed else p.completed)
  }

  /** An empty update object leaves the task as it is. */
  lemma MergeNoChange(t: Task)
    ensures Merge(t, NoChange) == t
  {
  }

  /** Merging the same update twice is merging it once. */
  lemma MergeIdempotent(t: Task, p: Patch)
    ensures Merge(Merge(t, p), p) == Merge(t, p)
  {
  }

  /** Two merges in a row are one merge of the combined update, later
      fields winning. */
  lemma MergeThen(t: Task, p: Patch, q: Patch)
    ensures Merge(Merge(t, p), q) == Merge(t, Then(p, q))
  {
  }

  /** The in-memory state: the task list, the project list and the fixed
      list of context labels. */
  datatype Store = Store(tasks: seq<Task>, projects: seq<Project>, contexts: seq<string>)

  predicate UniqueTaskIds(ts: seq<Task>) {
    forall i, j :: 0 <= i < j < |ts| ==> ts[i].id != ts[j].id
  }

  predicate UniqueProjectIds(ps: seq<Project>) {
    forall i, j :: 0 <= i < j < |ps| ==> ps[i].id != ps[j].id
  }

  /** The id source never repeats an id within a list (Date.now() strings
      taken at distinct moments in the app). */
  predicate Valid(s: Store) {
    UniqueTaskIds(s.tasks) && UniqueProjectIds(s.projects)
  }

  predicate HasTask(ts: seq<Task>, id: Id) {
    exists i :: 0 <= i < |ts| && ts[i].id == id
  }

  predicate HasProject(ps: seq<Project>, id: Id) {
    exists i :: 0 <= i < |ps| && ps[i].id == id
  }
}

=== FILE: screens.dfy ===
/** The handlers on the Inbox and Next Actions screens that drive the store:
    adding a typed task, processing an inbox task into a project or into a
    next action (optionally creating the project on the way), and ticking a
    next action off. The selected task is passed by its id. */
module Screens {
  import opened Model
  import opened Seqs
  import opened Text
  import opened TaskStore

  /** `handleAddTask`: a title that trims to nothing is ignored; otherwise
      the trimmed title becomes a new inbox task at the end of the list. */
  function HandleAddTask(s: Store, input: string, id: Id, now: string): (r: Store)
    ensures AllWhitespace(input) ==> r == s
    ensures !AllWhitespace(input) ==> r == AddTask(s, id, Trim(input), now)
    ensures !AllWhitespace(input) ==>
      && r.projects == s.projects && r.contexts == s.contexts
      && |r.tasks| == |s.tasks| + 1 && r.tasks[..|s.tasks|] == s.tasks
      && r.tasks[|s.tasks|].id == id
      && r.tasks[|s.tasks|].title == Trim(input)
      && r.tasks[|s.tasks|].status == Inbox
      && !r.tasks[|s.tasks|].completed
  {
    var title := Trim(input);
    if title != [] then AddTask(s, id, title, now) else s
  }

  /** A stored title is never empty and never starts or ends with whitespace. */
  lemma HandleAddTaskTitleIsTrimmed(s: Store, input: string, id: Id, now: string)
    requires !AllWhitespace(input)
    ensures var title := HandleAddTask(s, input, id, now).tasks[|s.tasks|].title;
      title != [] && !IsWhitespace(title[0]) && !IsWhitespace(title[|title| - 1])
  {
  }

  /** The update object `{ status: 'project', projectId }`. */
  function MovePatch(pid: Id): Patch {
    Patch(Keep, Set(InProject), Keep, Set(Some(pid)), Keep)
  }

  /** The update object `{ status: 'next-action', context }`. */
  function NextActionPatch(ctx: string): Patch {
    Patch(Keep, Set(NextAction), Set(Some(ctx)), Keep, Keep)
  }

  /** `handleMoveToProject`: the selected task gets status 'project' and the
      project id, keeps its title, context and completion; no other task and
      no project changes; the selected task is no longer in the inbox. */
  function HandleMoveToProject(s: Store, selected: Id, pid: Id): (r: Store)
    ensures r.projects == s.projects && r.contexts == s.contexts
    ensures |r.tasks| == |s.tasks|
    ensures forall i :: 0 <= i < |s.tasks| && s.tasks[i].id != selected ==> r.tasks[i] == s.tasks[i]
    ensures forall i :: 0 <= i < |s.tasks| && s.tasks[i].id == selected ==>
      r.tasks[i] == s.tasks[i].(status := InProject, projectId := Some(pid))
    ensures forall t :: t in InboxTasks(r.tasks) ==> t.id != selected
  {
    UpdateTask(s, selected, MovePatch(pid))
  }

  /** `handleMakeNextAction`: the selected task gets status 'next-action'
      and the context, keeps everything else; it leaves the inbox and shows
      up on the Next Actions screen under the chips (context, 'all'). */
  function HandleMakeNextAction(s: Store, selected: Id, ctx: string): (r: Store)
    ensures r.projects == s.projects && r.contexts == s.contexts
    ensures |r.tasks| == |s.tasks|
    ensures forall i :: 0 <= i < |s.tasks| && s.tasks[i].id != selected ==> r.tasks[i] == s.tasks[i]
    ensures forall i :: 0 <= i < |s.tasks| && s.tasks[i].id == selected ==>
      r.tasks[i] == s.tasks[i].(status := NextAction, context := Some(ctx))
    ensures forall i :: 0 <= i < |s.tasks| && s.tasks[i].id == selected ==>
      r.tasks[i] in FilteredNextActions(r.tasks, Only(ctx), All)
    ensures forall t :: t in InboxTasks(r.tasks) ==> t.id != selected
  {
    var r := UpdateTask(s, selected, NextActionPatch(ctx));
    assert forall i :: 0 <= i < |r.tasks| ==> r.tasks[i] in r.tasks;
    r
  }

  /** Processing a task out of the inbox removes exactly that task from the
      inbox list and leaves the rest of the inbox in order. */
  lemma {:induction false} LeavingInbox(ts: seq<Task>, id: Id, p: Patch)
    requires p.status.Set? && p.status.value != Inbox
    ensures InboxTasks(UpdateMatching(ts, id, p)) == Filter(InboxTasks(ts), (t: Task) => t.id != id)
    decreases |ts|
  {
    var keep := (t: Task) => t.id != id;
    if ts != [] {
      LeavingInbox(ts[1..], id, p);
      var u := UpdateMatching(ts, id, p);
      assert u == [u[0]] + UpdateMatching(ts[1..], id, p);
      FilterAppend([u[0]], UpdateMatching(ts[1..], id, p), IsInbox);
      FilterSingleton(u[0], IsInbox);
      assert ts == [ts[0]] + ts[1..];
      FilterAppend([ts[0]], ts[1..], IsInbox);
      FilterSingleton(ts[0], IsInbox);
      FilterAppend(Filter([ts[0]], IsInbox), InboxTasks(ts[1..]), keep);
      FilterSingleton(ts[0], keep);
    }
  }

  lemma MoveToProjectLeavesInbox(s: Store, selected: Id, pid: Id)
    ensures InboxTasks(HandleMoveToProject(s, selected, pid).tasks)
         == Filter(InboxTasks(s.tasks), (t: Task) => t.id != selected)
  {
    LeavingInbox(s.tasks, selected, MovePatch(pid));
  }

  lemma MakeNextActionLeavesInbox(s: Store, selected: Id, ctx: string)
    ensures InboxTasks(HandleMakeNextAction(s, selected, ctx).tasks)
         == Filter(InboxTasks(s.tasks), (t: Task) => t.id != selected)
  {
    LeavingInbox(s.tasks, selected, NextActionPatch(ctx));
  }

  /** `handleCreateNewProject`: a name that trims to nothing is ignored;
      otherwise one project with the fresh id and the trimmed name and
      description is appended, and the selected task is moved into it. */
  function HandleCreateNewProject(s: Store, selected: Id, name: string, description: string,
                                  id: Id, now: string): (r: Store)
    ensures AllWhitespace(name) ==> r == s
    ensures !AllWhitespace(name) ==>
      && r.contexts == s.contexts
      && |r.projects| == |s.projects| + 1 && r.projects[..|s.projects|] == s.projects
      && r.projects[|s.projects|] == Project(id, Trim(name), Trim(description), now)
      && |r.tasks| == |s.tasks|
      && (forall i :: 0 <= i < |s.tasks| && s.tasks[i].id != selected ==> r.tasks[i] == s.tasks[i])
      && (forall i :: 0 <= i < |s.tasks| && s.tasks[i].id == selected ==>
            r.tasks[i] == s.tasks[i].(status := InProject, projectId := Some(id)))
  {
    var n := Trim(name);
    if n == [] then s
    else
      var added := AddProject(s, id, n, Trim(description), now);
      HandleMoveToProject(added.0, selected, added.1)
  }

  /** With unique ids, creating a project from the inbox row at index `k`
      changes that row's task alone. */
  lemma CreateNewProjectMovesOne(s: Store, k: nat, name: string, description: string, id: Id, now: string)
    requires UniqueTaskIds(s.tasks) && k < |s.tasks| && !AllWhitespace(name)
    ensures var r := HandleCreateNewProject(s, s.tasks[k].id, name, description, id, now);
      && |r.tasks| == |s.tasks|
      && r.tasks[k] == s.tasks[k].(status := InProject, projectId := Some(id))
      && forall i :: 0 <= i < |s.tasks| && i != k ==> r.tasks[i] == s.tasks[i]
  {
    forall i | 0 <= i < |s.tasks| && i != k ensures s.tasks[i].id != s.tasks[k].id {
    }
  }

  /** `tasks.find(t => t.id === id)`, as the index of the first task with
      that id, or None. */
  function Find(ts: seq<Task>, id: Id): (r: Option<nat>)
    ensures r.None? <==> !HasTask(ts, id)
    ensures r.Some? ==> r.value < |ts| && ts[r.value].id == id
    ensures r.Some? ==> forall j :: 0 <= j < r.value ==> ts[j].id != id
  {
    if ts == [] then None
    else if ts[0].id == id then Some(0)
    else match Find(ts[1..], id)
      case None => None
      case Some(k) => Some(k + 1)
  }

  /** `toggleTaskComplete`: the store update sets `completed` of every task
      with that id to the negation of the first such task's flag; nothing
      else changes. The source reads `find`'s result without a check, so a
      task with that id must exist. */
  function ToggleTaskComplete(s: Store, id: Id): (r: Store)
    requires HasTask(s.tasks, id)
    ensures r.projects == s.projects && r.contexts == s.contexts
    ensures |r.tasks| == |s.tasks|
    ensures forall i :: 0 <= i < |s.tasks| && s.tasks[i].id != id ==> r.tasks[i] == s.tasks[i]
    ensures forall i :: 0 <= i < |s.tasks| && s.tasks[i].id == id ==>
      r.tasks[i] == s.tasks[i].(completed := !s.tasks[Find(s.tasks, id).value].completed)
  {
    var first := s.tasks[Find(s.tasks, id).value];
    UpdateTask(s, id, Patch(Keep, Keep, Keep, Keep, Set(!first.completed)))
  }

  /** With unique ids, toggling flips exactly the one task's flag. */
  lemma ToggleFlipsOne(s: Store, k: nat)
    requires Valid(s) && k < |s.tasks|
    ensures var r := ToggleTaskComplete(s, s.tasks[k].id);
      && r.tasks[k] == s.tasks[k].(completed := !s.tasks[k].completed)
      && forall i :: 0 <= i < |s.tasks| && i != k ==> r.tasks[i] == s.tasks[i]
  {
    var id := s.tasks[k].id;
    var f := Find(s.tasks, id).value;
    assert f == k;
    var r := ToggleTaskComplete(s, id);
    forall i | 0 <= i < |s.tasks| && i != k ensures r.tasks[i] == s.tasks[i] {
      assert s.tasks[i].id != s.tasks[k].id;
    }
  }

  lemma ToggleKeepsValid(s: Store, id: Id)
    requires Valid(s) && HasTask(s.tasks, id)
    ensures Valid(ToggleTaskComplete(s, id)) && HasTask(ToggleTaskComplete(s, id).tasks, id)
  {
    var r := ToggleTaskComplete(s, id);
    var k :| 0 <= k < |s.tasks| && s.tasks[k].id == id;
    assert r.tasks[k].id == id;
    forall i, j | 0 <= i < j < |r.tasks| ensures r.tasks[i].id != r.tasks[j].id {
      assert r.tasks[i].id == s.tasks[i].id && r.tasks[j].id == s.tasks[j].id;
    }
  }

  /** With unique ids, ticking the same task twice restores the store. */
  lemma ToggleTwice(s: Store, id: Id)
    requires Valid(s) && HasTask(s.tasks, id)
    ensures ToggleTaskComplete(ToggleTaskComplete(s, id), id) == s
  {
    var r := ToggleTaskComplete(s, id);
    ToggleKeepsValid(s, id);
    var r2 := ToggleTaskComplete(r, id);
    var k :| 0 <= k < |s.tasks| && s.tasks[k].id == id;
    ToggleFlipsOne(s, k);
    ToggleFlipsOne(r, k);
    assert r2.tasks == s.tasks;
  }
}

=== FILE: seqs.dfy ===
/** The order-preserving filter that every task list the screens show is built from
    (JavaScript's Array.prototype.filter), with the facts about it that the
    store's views rely on. */
module Seqs {

  /** The elements of `s` that `keep` accepts, in their original order. */
  function Filter<T(!new)>(s: seq<T>, keep: T -> bool): (r: seq<T>)
    ensures |r| <= |s|
    ensures forall i :: 0 <= i < |r| ==> keep(r[i])
    ensures forall x :: x in r <==> x in s && keep(x)
  {
    if s == [] then []
    else if keep(s[0]) then [s[0]] + Filter(s[1..], keep)
    else Filter(s[1..], keep)
  }

  /** Filtering distributes over concatenation: together with the one-element
      case this pins down that the result keeps the original order. */
  lemma {:induction false} FilterAppend<T(!new)>(a: seq<T>, b: seq<T>, keep: T -> bool)
    ensures Filter(a + b, keep) == Filter(a, keep) + Filter(b, keep)
    decreases |a|
  {
    if a == [] {
      assert a + b == b;
    } else {
      assert (a + b)[1..] == a[1..] + b;
      FilterAppend(a[1..], b, keep);
    }
  }

  lemma FilterSingleton<T(!new)>(x: T, keep: T -> bool)
    ensures Filter([x], keep) == if keep(x) then [x] else []
  {
    assert [x][1..] == [];
  }

  /** The filter leaves a sequence unchanged exactly when it keeps every element. */
  lemma {:induction false} FilterKeepsAll<T(!new)>(s: seq<T>, keep: T -> bool)
    ensures Filter(s, keep) == s <==> forall i :: 0 <= i < |s| ==> keep(s[i])
    decreases |s|
  {
    if s != [] {
      FilterKeepsAll(s[1..], keep);
      if !keep(s[0]) {
        assert |Filter(s, keep)| < |s|;
      } else if Filter(s, keep) == s {
        assert Filter(s[1..], keep) == s[1..];
      }
    }
  }

  /** A filter that accepts no element of `s` returns nothing. */
  lemma FilterKeepsNone<T(!new)>(s: seq<T>, keep: T -> bool)
    requires forall i :: 0 <= i < |s| ==> !keep(s[i])
    ensures Filter(s, keep) == []
  {
    var r := Filter(s, keep);
    if r != [] {
      assert false;
    }
  }

  /** A filter that accepts one element and rejects all others returns just
      that element. */
  lemma FilterPicksOne<T(!new)>(before: seq<T>, x: T, after: seq<T>, keep: T -> bool)
    requires forall i :: 0 <= i < |before| ==> !keep(before[i])
    requires forall i :: 0 <= i < |after| ==> !keep(after[i])
    requires keep(x)
    ensures Filter(before + [x] + after, keep) == [x]
  {
    FilterKeepsNone(before, keep);
    FilterKeepsNone(after, keep);
    FilterSingleton(x, keep);
    FilterAppend(before, [x], keep);
    FilterAppend(before + [x], after, keep);
    assert [] + [x] + [] == [x];
  }

  /** A filter that rejects one element and accepts all others cuts exactly
      that element out. */
  lemma FilterDropsOne<T(!new)>(before: seq<T>, x: T, after: seq<T>, keep: T -> bool)
    requires forall i :: 0 <= i < |before| ==> keep(before[i])
    requires forall i :: 0 <= i < |after| ==> keep(after[i])
    requires !keep(x)
    ensures Filter(before + [x] + after, keep) == before + after
  {
    FilterKeepsAll(before, keep);
    FilterKeepsAll(after, keep);
    FilterSingleton(x, keep);
    FilterAppend(before, [x], keep);
    FilterAppend(before + [x], after, keep);
    assert before + [] == before;
  }

  /** Two filters applied one after the other are the single filter that
      asks both questions. */
  lemma {:induction false} FilterFilter<T(!new)>(s: seq<T>, p: T -> bool, q: T -> bool, both: T -> bool)
    requires forall x :: both(x) == (p(x) && q(x))
    ensures Filter(Filter(s, p), q) == Filter(s, both)
    decreases |s|
  {
    if s != [] {
      FilterFilter(s[1..], p, q, both);
      if p(s[0]) {
        assert Filter(s, p)[1..] == Filter(s[1..], p);
      }
    }
  }

  /** The order in which two filters are applied does not matter. */
  lemma FilterCommute<T(!new)>(s: seq<T>, p: T -> bool, q: T -> bool)
    ensures Filter(Filter(s, p), q) == Filter(Filter(s, q), p)
  {
    var both := x => p(x) && q(x);
    FilterFilter(s, p, q, both);
    FilterFilter(s, q, p, both);
  }
}

=== FILE: store.dfy ===
/** The store functions the app component hands to its screens (`addTask`,
    `updateTask`, `deleteTask`, `addProject`) and the derived lists the
    screens show: the inbox, the filtered next actions, a project's tasks
    and its progress percentage. Each operation maps the old store to the
    new one. */
module TaskStore {
  import opened Model
  import opened Seqs

  // ---------------------------------------------------------------- addTask

  /** Appends a fresh inbox task: no context, no project, not completed.
      The title is stored as given (the inbox screen trims it first). */
  function AddTask(s: Store, id: Id, title: string, now: string): (r: Store)
    ensures r.projects == s.projects && r.contexts == s.contexts
    ensures |r.tasks| == |s.tasks| + 1 && r.tasks[..|s.tasks|] == s.tasks
    ensures var t := r.tasks[|s.tasks|];
      && t.id == id && t.title == title && t.createdAt == now
      && t.status == Inbox && t.context == None && t.projectId == None
      && !t.completed
  {
    s.(tasks := s.tasks + [Task(id, title, Inbox, None, None, false, now)])
  }

  /** With an id no task uses yet, ids stay unique. */
  lemma AddTaskKeepsValid(s: Store, id: Id, title: string, now: string)
    requires Valid(s) && !HasTask(s.tasks, id)
    ensures Valid(AddTask(s, id, title, now))
  {
    var ts := AddTask(s, id, title, now).tasks;
    forall i, j | 0 <= i < j < |ts| ensures ts[i].id != ts[j].id {
      if j == |s.tasks| {
        assert ts[i] == s.tasks[i];
      } else {
        assert ts[i] == s.tasks[i] && ts[j] == s.tasks[j];
      }
    }
  }

  // ------------------------------------------------------------- updateTask

  /** `tasks.map(task => task.id === id ? { ...task, ...p } : task)`. */
  function UpdateMatching(ts: seq<Task>, id: Id, p: Patch): (r: seq<Task>)
    ensures |r| == |ts|
    ensures forall i :: 0 <= i < |ts| && ts[i].id != id ==> r[i] == ts[i]
    ensures forall i :: 0 <= i < |ts| && ts[i].id == id ==> r[i] == Merge(ts[i], p)
  {
    if ts == [] then []
    else [if ts[0].id == id then Merge(ts[0], p) else ts[0]] + UpdateMatching(ts[1..], id, p)
  }

  /** Shallow-merges `p` onto every task whose id is `id`, keeping the list's
      length and order; every other task, and the project list, is left as
      it was. */
  function UpdateTask(s: Store, id: Id, p: Patch): (r: Store)
    ensures r.projects == s.projects && r.contexts == s.contexts
    ensures |r.tasks| == |s.tasks|
    ensures forall i :: 0 <= i < |s.tasks| ==> r.tasks[i].id == s.tasks[i].id
    ensures forall i :: 0 <= i < |s.tasks| && s.tasks[i].id != id ==> r.tasks[i] == s.tasks[i]
    ensures forall i :: 0 <= i < |s.tasks| && s.tasks[i].id == id ==> r.tasks[i] == Merge(s.tasks[i], p)
  {
    s.(tasks := UpdateMatching(s.tasks, id, p))
  }

  /** An id no task carries makes the update a no-op. */
  lemma UpdateTaskMissing(s: Store, id: Id, p: Patch)
    requires !HasTask(s.tasks, id)
    ensures UpdateTask(s, id, p) == s
  {
    var r := UpdateTask(s, id, p);
    assert r.tasks == s.tasks;
  }

  /** Updates leave ids where they were, so ids stay unique. */
  lemma UpdateTaskKeepsValid(s: Store, id: Id, p: Patch)
    requires Valid(s)
    ensures Valid(UpdateTask(s, id, p))
  {
  }

  /** Two updates of one task are one update with the combined fields. */
  lemma UpdateTaskThen(s: Store, id: Id, p: Patch, q: Patch)
    ensures UpdateTask(UpdateTask(s, id, p), id, q) == UpdateTask(s, id, Then(p, q))
  {
    var a := UpdateTask(UpdateTask(s, id, p), id, q);
    var b := UpdateTask(s, id, Then(p, q));
    forall i | 0 <= i < |s.tasks| ensures a.tasks[i] == b.tasks[i] {
      if s.tasks[i].id == id {
        MergeThen(s.tasks[i], p, q);
      }
    }
  }

  // ------------------------------------------------------------- deleteTask

  /** `tasks.filter(task => task.id !== id)`: exactly the tasks with another
      id, in order; the project list is never touched. */
  function DeleteTask(s: Store, id: Id): (r: Store)
    ensures r.projects == s.projects && r.contexts == s.contexts
    ensures |r.tasks| <= |s.tasks|
    ensures !HasTask(r.tasks, id)
    ensures forall t :: t in r.tasks <==> t in s.tasks && t.id != id
  {
    var r := s.(tasks := Filter(s.tasks, (t: Task) => t.id != id));
    assert forall i :: 0 <= i < |r.tasks| ==> r.tasks[i].id != id;
    r
  }

  /** Deleting an id no task carries leaves the store unchanged. */
  lemma DeleteTaskMissing(s: Store, id: Id)
    requires !HasTask(s.tasks, id)
    ensures DeleteTask(s, id) == s
  {
    FilterKeepsAll(s.tasks, (t: Task) => t.id != id);
  }

  /** With unique ids, deleting the task at index `k` cuts exactly that one
      entry out of the list. */
  lemma DeleteTaskRemovesOne(s: Store, k: nat)
    requires Valid(s) && k < |s.tasks|
    ensures DeleteTask(s, s.tasks[k].id).tasks == s.tasks[..k] + s.tasks[k + 1..]
    ensures |DeleteTask(s, s.tasks[k].id).tasks| == |s.tasks| - 1
  {
    var ts := s.tasks;
    var id := ts[k].id;
    var keep := (t: Task) => t.id != id;
    var before, after := ts[..k], ts[k + 1..];
    assert ts == before + [ts[k]] + after;
    assert forall i :: 0 <= i < |before| ==> keep(before[i]) by {
      forall i | 0 <= i < |before| ensures keep(before[i]) {
        assert before[i] == ts[i];
      }
    }
    assert forall i :: 0 <= i < |after| ==> keep(after[i]) by {
      forall i | 0 <= i < |after| ensures keep(after[i]) {
        assert after[i] == ts[k + 1 + i];
      }
    }
    FilterDropsOne(before, ts[k], after, keep);
  }

  /** Any filter of a list with unique ids again has unique ids. */
  lemma {:induction false} FilterKeepsUniqueIds(ts: seq<Task>, keep: Task -> bool)
    requires UniqueTaskIds(ts)
    ensures UniqueTaskIds(Filter(ts, keep))
    decreases |ts|
  {
    if ts != [] {
      var rest := ts[1..];
      assert UniqueTaskIds(rest) by {
        forall i, j | 0 <= i < j < |rest| ensures rest[i].id != rest[j].id {
          assert rest[i] == ts[i + 1] && rest[j] == ts[j + 1];
        }
      }
      FilterKeepsUniqueIds(rest, keep);
      if keep(ts[0]) {
        var r := Filter(ts, keep);
        var fr := Filter(rest, keep);
        assert r == [ts[0]] + fr;
        forall i, j | 0 <= i < j < |r| ensures r[i].id != r[j].id {
          if i == 0 {
            assert r[j] == fr[j - 1] && fr[j - 1] in rest;
            var m :| 0 <= m < |rest| && rest[m] == fr[j - 1];
            assert ts[m + 1] == rest[m];
          } else {
            assert r[i] == fr[i - 1] && r[j] == fr[j - 1];
          }
        }
      }
    }
  }

  lemma DeleteTaskKeepsValid(s: Store, id: Id)
    requires Valid(s)
    ensures Valid(DeleteTask(s, id))
  {
    FilterKeepsUniqueIds(s.tasks, (t: Task) => t.id != id);
  }

  // ------------------------------------------------------------- addProject

  /** Appends a project record and hands its id back to the caller. The name
      and description are stored as given (the new-project form trims them). */
  function AddProject(s: Store, id: Id, name: string, description: string, now: string): (r: (Store, Id))
    ensures r.1 == id
    ensures r.0.tasks == s.tasks && r.0.contexts == s.contexts
    ensures |r.0.projects| == |s.projects| + 1 && r.0.projects[..|s.projects|] == s.projects
    ensures var p := r.0.projects[|s.projects|];
      p.id == id && p.name == name && p.description == description && p.createdAt == now
  {
    (s.(projects := s.projects + [Project(id, name, description, now)]), id)
  }

  lemma AddProjectKeepsValid(s: Store, id: Id, name: string, description: string, now: string)
    requires Valid(s) && !HasProject(s.projects, id)
    ensures Valid(AddProject(s, id, name, description, now).0)
  {
    var ps := AddProject(s, id, name, description, now).0.projects;
    forall i, j | 0 <= i < j < |ps| ensures ps[i].id != ps[j].id {
      assert ps[i] == s.projects[i];
      if j < |s.projects| {
        assert ps[j] == s.projects[j];
      }
    }
  }

  // ----------------------------------------------------------------- inbox

  predicate IsInbox(t: Task) {
    t.status == Inbox
  }

  /** `tasks.filter(task => task.status === 'inbox')`. */
  function InboxTasks(ts: seq<Task>): (r: seq<Task>)
    ensures forall t :: t in r <==> t in ts && t.status == Inbox
  {
    Filter(ts, IsInbox)
  }

  /** A newly added task shows up at the end of the inbox; nothing else in
      the inbox moves. */
  lemma AddTaskShowsInInbox(s: Store, id: Id, title: string, now: string)
    ensures var r := AddTask(s, id, title, now);
      InboxTasks(r.tasks) == InboxTasks(s.tasks) + [r.tasks[|s.tasks|]]
  {
    var r := AddTask(s, id, title, now);
    assert r.tasks == s.tasks + [r.tasks[|s.tasks|]];
    FilterAppend(s.tasks, [r.tasks[|s.tasks|]], IsInbox);
    FilterSingleton(r.tasks[|s.tasks|], IsInbox);
  }

  // ----------------------------------------------------------- next actions

  /** A filter chip: 'all', or one context label / project id. */
  datatype Selector = All | Only(value: string)

  /** `selected === 'all' || field === selected`. */
  predicate Selects(sel: Selector, field: Option<string>) {
    sel.All? || field == Some(sel.value)
  }

  predicate IsNextAction(t: Task) {
    t.status == NextAction
  }

  /** `tasks.filter(task => task.status === 'next-action')`. */
  function NextActionTasks(ts: seq<Task>): (r: seq<Task>)
    ensures forall t :: t in r <==> t in ts && t.status == NextAction
  {
    Filter(ts, IsNextAction)
  }

  predicate ChipsMatch(t: Task, ctx: Selector, proj: Selector) {
    Selects(ctx, t.context) && Selects(proj, t.projectId)
  }

  /** The Next Actions list: next-action tasks that pass the context chip
      AND the project chip. */
  function FilteredNextActions(ts: seq<Task>, ctx: Selector, proj: Selector): (r: seq<Task>)
    ensures forall t :: t in r <==>
      && t in ts && t.status == NextAction
      && (ctx.All? || t.context == Some(ctx.value))
      && (proj.All? || t.projectId == Some(proj.value))
  {
    Filter(NextActionTasks(ts), (t: Task) => ChipsMatch(t, ctx, proj))
  }

  /** The two-stage filter is one in-order pass over the task list that asks
      all three questions at once. */
  lemma FilteredNextActionsOnePass(ts: seq<Task>, ctx: Selector, proj: Selector)
    ensures FilteredNextActions(ts, ctx, proj)
         == Filter(ts, (t: Task) => t.status == NextAction && ChipsMatch(t, ctx, proj))
  {
    FilterFilter(ts, IsNextAction, (t: Task) => ChipsMatch(t, ctx, proj),
                 (t: Task) => t.status == NextAction && ChipsMatch(t, ctx, proj));
  }

  /** With both chips on 'all' the list is every next-action task. */
  lemma FilteredNextActionsAll(ts: seq<Task>)
    ensures FilteredNextActions(ts, All, All) == NextActionTasks(ts)
  {
    FilterKeepsAll(NextActionTasks(ts), (t: Task) => ChipsMatch(t, All, All));
  }

  /** The project chip narrows the context-filtered list and nothing else:
      the two chips are combined by AND, in either order. */
  lemma FilteredNextActionsConjunction(ts: seq<Task>, ctx: Selector, proj: Selector)
    ensures FilteredNextActions(ts, ctx, proj)
         == Filter(FilteredNextActions(ts, ctx, All), (t: Task) => Selects(proj, t.projectId))
    ensures FilteredNextActions(ts, ctx, proj)
         == Filter(FilteredNextActions(ts, All, proj), (t: Task) => Selects(ctx, t.context))
  {
    var na := NextActionTasks(ts);
    FilterFilter(na, (t: Task) => ChipsMatch(t, ctx, All), (t: Task) => Selects(proj, t.projectId),
                 (t: Task) => ChipsMatch(t, ctx, proj));
    FilterFilter(na, (t: Task) => ChipsMatch(t, All, proj), (t: Task) => Selects(ctx, t.context),
                 (t: Task) => ChipsMatch(t, ctx, proj));
  }

  /** Deleting a task takes it out of every derived list and leaves the
      rest of each list, in order: the inbox, the filtered next actions and
      every project's task list. */
  lemma DeleteTaskFromViews(s: Store, id: Id, ctx: Selector, proj: Selector, pid: Id)
    ensures var ts := DeleteTask(s, id).tasks; var other := (t: Task) => t.id != id;
      && InboxTasks(ts) == Filter(InboxTasks(s.tasks), other)
      && FilteredNextActions(ts, ctx, proj) == Filter(FilteredNextActions(s.tasks, ctx, proj), other)
      && ProjectTasks(ts, pid) == Filter(ProjectTasks(s.tasks, pid), other)
  {
    var other := (t: Task) => t.id != id;
    var chips := (t: Task) => ChipsMatch(t, ctx, proj);
    FilterCommute(s.tasks, other, IsInbox);
    FilterCommute(s.tasks, other, IsNextAction);
    FilterCommute(NextActionTasks(s.tasks), other, chips);
    FilterCommute(s.tasks, other, (t: Task) => t.projectId == Some(pid));
  }

  // ---------------------------------------------------------------- projects

  /** `tasks.filter(task => task.projectId === projectId)`. */
  function ProjectTasks(ts: seq<Task>, pid: Id): (r: seq<Task>)
    ensures forall t :: t in r <==> t in ts && t.projectId == Some(pid)
  {
    Filter(ts, (t: Task) => t.projectId == Some(pid))
  }

  predicate IsCompleted(t: Task) {
    t.completed
  }

  /** How many of `ts` are completed: all of them exactly when every task
      is completed, none exactly when no task is. */
  function CompletedCount(ts: seq<Task>): (c: nat)
    ensures c <= |ts|
    ensures c == |ts| <==> forall i :: 0 <= i < |ts| ==> ts[i].completed
    ensures c == 0 <==> forall i :: 0 <= i < |ts| ==> !ts[i].completed
  {
    if ts == [] then 0
    else (if ts[0].completed then 1 else 0) + CompletedCount(ts[1..])
  }

  /** The count is the length of `ts.filter(t => t.completed)`, the form the
      Projects screen computes it in. */
  lemma {:induction false} CompletedCountIsFilterLength(ts: seq<Task>)
    ensures CompletedCount(ts) == |Filter(ts, IsCompleted)|
    decreases |ts|
  {
    if ts != [] {
      CompletedCountIsFilterLength(ts[1..]);
    }
  }

  lemma MulMonotone(n: int, a: int, b: int)
    requires n > 0 && a <= b
    ensures n * a <= n * b
  {
  }

  lemma DivBounds(x: nat, d: nat)
    requires d > 0
    ensures d * (x / d) <= x < d * (x / d + 1)
  {
  }

  /** `Math.round(c / n * 100)` in exact arithmetic: the integer nearest to
      100c/n, halves rounding up (2n·r <= 200c + n < 2n·(r + 1)), never above
      100. */
  function RoundPercent(c: nat, n: nat): (r: nat)
    requires c <= n && 0 < n
    ensures r <= 100
    ensures 2 * n * r <= 200 * c + n < 2 * n * (r + 1)
  {
    var r := (200 * c + n) / (2 * n);
    DivBounds(200 * c + n, 2 * n);
    PercentAtMostHundred(c, n, r);
    r
  }

  lemma PercentAtMostHundred(c: nat, n: nat, r: nat)
    requires c <= n && 0 < n && 2 * n * r <= 200 * c + n
    ensures r <= 100
  {
    if r > 100 {
      MulMonotone(2 * n, 101, r);
    }
  }

  /** Rounding half up stays monotone: more completed tasks never lower the
      percentage. */
  lemma RoundPercentMonotone(c1: nat, c2: nat, n: nat)
    requires c1 <= c2 <= n && 0 < n
    ensures RoundPercent(c1, n) <= RoundPercent(c2, n)
  {
    var r1 := RoundPercent(c1, n);
    var r2 := RoundPercent(c2, n);
    if r1 > r2 {
      MulMonotone(2 * n, r2 + 1, r1);
    }
  }

  /** The percentage shown on a project card: 0 when no task references the
      project, otherwise the share of completed referencing tasks, rounded
      half up. */
  function Progress(ts: seq<Task>, pid: Id): (r: nat)
    ensures r <= 100
    ensures ProjectTasks(ts, pid) == [] ==> r == 0
    ensures var pt := ProjectTasks(ts, pid); var n := |pt|; var c := CompletedCount(pt);
      n > 0 ==> 2 * n * r <= 200 * c + n < 2 * n * (r + 1)
  {
    var pt := ProjectTasks(ts, pid);
    if |pt| == 0 then 0 else RoundPercent(CompletedCount(pt), |pt|)
  }

  /** The card shows 100% exactly when some task references the project and
      at least 99.5% of those tasks are completed. */
  lemma ProgressHundred(ts: seq<Task>, pid: Id)
    ensures Progress(ts, pid) == 100 <==>
      var pt := ProjectTasks(ts, pid); pt != [] && 200 * CompletedCount(pt) >= 199 * |pt|
  {
    var pt := ProjectTasks(ts, pid);
    var r := Progress(ts, pid);
    if pt != [] && r < 100 {
      MulMonotone(2 * |pt|, r + 1, 100);
    }
  }

  /** Every referencing task completed gives 100%. */
  lemma ProgressAllCompleted(ts: seq<Task>, pid: Id)
    requires ProjectTasks(ts, pid) != []
    requires forall t :: t in ts && t.projectId == Some(pid) ==> t.completed
    ensures Progress(ts, pid) == 100
  {
    var pt := ProjectTasks(ts, pid);
    assert forall i :: 0 <= i < |pt| ==> pt[i] in pt;
    ProgressHundred(ts, pid);
  }

  /** No referencing task completed gives 0%. */
  lemma ProgressNoneCompleted(ts: seq<Task>, pid: Id)
    requires forall t :: t in ts && t.projectId == Some(pid) ==> !t.completed
    ensures Progress(ts, pid) == 0
  {
    var pt := ProjectTasks(ts, pid);
    assert forall i :: 0 <= i < |pt| ==> pt[i] in pt;
    var r := Progress(ts, pid);
    if pt != [] && r > 0 {
      MulMonotone(2 * |pt|, 1, r);
    }
  }

  /** Three referencing tasks, one completed: 33%. */
  lemma ProgressOneOfThree()
    ensures RoundPercent(1, 3) == 33
  {
  }

  lemma ProgressBounds(n: nat, c: nat, p: nat)
    requires c <= n && p <= 100
    requires n > 0 ==> 2 * n * p <= 200 * c + n < 2 * n * (p + 1)
    requires n == 0 ==> p == 0
    ensures n > 0 && c == n ==> p == 100
    ensures c == 0 ==> p == 0
  {
    if n > 0 && c == n && p < 100 {
      MulMonotone(2 * n, p + 1, 100);
    }
    if n > 0 && c == 0 && p > 0 {
      MulMonotone(2 * n, 1, p);
    }
  }

  /** One row of the Projects screen: the project, how many tasks reference
      it, how many of those are completed, and the percentage. */
  datatype ProjectRow = ProjectRow(project: Project, taskCount: nat, completedCount: nat, progress: nat)

  /** The row for one project card: the referencing tasks, the completed
      ones among them, and the card's percentage. Its numbers agree with each
      other: the percentage is 0 for a project no task references or none of
      whose tasks is completed, and 100 when all of them are. */
  function RowFor(ts: seq<Task>, p: Project): (row: ProjectRow)
    ensures row.project == p
    ensures row.taskCount == |ProjectTasks(ts, p.id)|
    ensures row.completedCount == |Filter(ProjectTasks(ts, p.id), IsCompleted)|
    ensures row.progress == Progress(ts, p.id)
    ensures row.completedCount <= row.taskCount && row.progress <= 100
    ensures row.taskCount == 0 ==> row.progress == 0
    ensures row.completedCount == 0 ==> row.progress == 0
    ensures row.taskCount > 0 && row.completedCount == row.taskCount ==> row.progress == 100
  {
    var pt := ProjectTasks(ts, p.id);
    var c := CompletedCount(pt);
    var pr := Progress(ts, p.id);
    ProgressBounds(|pt|, c, pr);
    CompletedCountIsFilterLength(pt);
    ProjectRow(p, |pt|, c, pr)
  }

  /** The Projects screen: one row per project, in project order. */
  function ProjectRows(s: Store): (r: seq<ProjectRow>)
    ensures |r| == |s.projects|
    ensures forall i :: 0 <= i < |r| ==> r[i] == RowFor(s.tasks, s.projects[i])
    ensures forall i :: 0 <= i < |r| ==>
      var pt := ProjectTasks(s.tasks, s.projects[i].id);
      && r[i].project == s.projects[i]
      && r[i].taskCount == |pt|
      && r[i].completedCount == |Filter(pt, IsCompleted)|
      && r[i].progress == Progress(s.tasks, s.projects[i].id)
      && r[i].progress <= 100
  {
    seq(|s.projects|, i requires 0 <= i < |s.projects| => RowFor(s.tasks, s.projects[i]))
  }
}

=== FILE: text.dfy ===
/** Whitespace trimming as JavaScript's String.prototype.trim performs it.
    The inbox screen trims a typed task title, and the new-project form trims
    the project name and description, before handing them to the store. */
module Text {

  /** The characters trim removes: ECMAScript's WhiteSpace set (tab, vertical
      tab, form feed, space, no-break space, byte order mark and the Unicode
      space separators) and its LineTerminator set. */
  predicate IsWhitespace(c: char) {
    || c == '\t' || c == '\n' || c == '\U{000B}' || c == '\U{000C}' || c == '\r'
    || c == ' ' || c == '\U{00A0}' || c == '\U{1680}'
    || ('\U{2000}' <= c <= '\U{200A}')
    || c == '\U{2028}' || c == '\U{2029}' || c == '\U{202F}' || c == '\U{205F}'
    || c == '\U{3000}' || c == '\U{FEFF}'
  }

  predicate AllWhitespace(s: string) {
    forall i :: 0 <= i < |s| ==> IsWhitespace(s[i])
  }

  /** The index of the first non-whitespace character at or after `i`
      (`|s|` when there is none). */
  function SkipForward(s: string, i: nat): (k: nat)
    requires i <= |s|
    ensures i <= k <= |s|
    ensures forall j :: i <= j < k ==> IsWhitespace(s[j])
    ensures k < |s| ==> !IsWhitespace(s[k])
    decreases |s| - i
  {
    if i < |s| && IsWhitespace(s[i]) then SkipForward(s, i + 1) else i
  }

  /** Walking back from `j` towards `lo`: the index just after the last
      non-whitespace character in `s[lo..j]` (`lo` when there is none). */
  function SkipBackward(s: string, lo: nat, j: nat): (k: nat)
    requires lo <= j <= |s|
    ensures lo <= k <= j
    ensures forall i :: k <= i < j ==> IsWhitespace(s[i])
    ensures lo < k ==> !IsWhitespace(s[k - 1])
    decreases j - lo
  {
    if lo < j && IsWhitespace(s[j - 1]) then SkipBackward(s, lo, j - 1) else j
  }

  /** `s` without whitespace at either end: the result is the slice of `s`
      that remains after cutting whitespace-only runs off both ends (it
      starts where the leading run stops), it is empty exactly when `s` is
      all whitespace, and otherwise it starts and ends with a non-whitespace
      character. */
  function Trim(s: string): (r: string)
    ensures var k := SkipForward(s, 0);
      && k + |r| <= |s|
      && r == s[k..k + |r|]
      && (forall i :: 0 <= i < k ==> IsWhitespace(s[i]))
      && (forall i :: k + |r| <= i < |s| ==> IsWhitespace(s[i]))
    ensures r == [] <==> AllWhitespace(s)
    ensures r != [] ==> !IsWhitespace(r[0]) && !IsWhitespace(r[|r| - 1])
  {
    var a := SkipForward(s, 0);
    var b := SkipBackward(s, a, |s|);
    assert a < b ==> s[a..b][0] == s[a] && s[a..b][b - a - 1] == s[b - 1];
    s[a..b]
  }

  /** Trimming twice is trimming once. */
  lemma TrimIdempotent(s: string)
    ensures Trim(Trim(s)) == Trim(s)
  {
    var r := Trim(s);
    if r != [] {
      assert SkipForward(r, 0) == 0;
      assert r[0..|r|] == r;
    }
  }

  /** Whitespace around a text that already has no whitespace at its ends is
      exactly what trim removes. */
  lemma TrimPadded(lead: string, body: string, trail: string)
    requires AllWhitespace(lead) && AllWhitespace(trail)
    requires body != [] && !IsWhitespace(body[0]) && !IsWhitespace(body[|body| - 1])
    ensures Trim(lead + body + trail) == body
  {
    var s := lead + body + trail;
    assert s[|lead|] == body[0];
    assert forall i :: 0 <= i < |lead| ==> s[i] == lead[i];
    assert forall i :: |lead| + |body| <= i < |s| ==> s[i] == trail[i - |lead| - |body|];
    assert s[|lead| + |body| - 1] == body[|body| - 1];
    var k := SkipForward(s, 0);
    assert k == |lead|;
    var r := Trim(s);
    assert |r| == |body|;
    assert s[|lead|..|lead| + |body|] == body;
  }
}

=== FILE: workflow.dfy ===
/** The three screens as a state machine over the store. An event is one
    tap the user can make, enabled only where the screen offers it: the
    Process and Delete buttons sit on inbox rows, the process modal lists the
    existing projects and the context labels, and the Next Actions screen
    lets the user tick only next-action rows. Starting from the seeded store,
    every reachable store keeps each task's fields consistent with its
    status. */
module Workflow {
  import opened Model
  import opened Seqs
  import opened Text
  import opened TaskStore
  import opened Screens

  datatype Event =
    | AddTyped(input: string, id: Id, now: string)
    | DeleteRow(id: Id)
    | MoveSelected(selected: Id, pid: Id)
    | MakeSelectedNext(selected: Id, ctx: string)
    | CreateAndMove(selected: Id, name: string, description: string, id: Id, now: string)
    | TickNextAction(id: Id)

  predicate InInbox(ts: seq<Task>, id: Id) {
    exists i :: 0 <= i < |ts| && ts[i].id == id && ts[i].status == Inbox
  }

  predicate IsNextActionRow(ts: seq<Task>, id: Id) {
    exists i :: 0 <= i < |ts| && ts[i].id == id && ts[i].status == NextAction
  }

  /** Whether the screens offer the event in store `s`. The id source hands
      out ids no task (for a task) or project (for a project) carries yet. */
  predicate Enabled(s: Store, e: Event) {
    match e
    case AddTyped(_, id, _) => !HasTask(s.tasks, id)
    case DeleteRow(id) => InInbox(s.tasks, id)
    case MoveSelected(sel, pid) => InInbox(s.tasks, sel) && HasProject(s.projects, pid)
    case MakeSelectedNext(sel, ctx) => InInbox(s.tasks, sel) && ctx in s.contexts
    case CreateAndMove(sel, _, _, id, _) => InInbox(s.tasks, sel) && !HasProject(s.projects, id)
    case TickNextAction(id) => IsNextActionRow(s.tasks, id)
  }

  /** One tap. No screen deletes or edits a project or a context label:
      the project list only grows at its end, and the labels never change. */
  function Step(s: Store, e: Event): (r: Store)
    requires Enabled(s, e)
    ensures r.contexts == s.contexts
    ensures |s.projects| <= |r.projects| && r.projects[..|s.projects|] == s.projects
    ensures !e.CreateAndMove? ==> r.projects == s.projects
  {
    match e
    case AddTyped(input, id, now) => HandleAddTask(s, input, id, now)
    case DeleteRow(id) => DeleteTask(s, id)
    case MoveSelected(sel, pid) => HandleMoveToProject(s, sel, pid)
    case MakeSelectedNext(sel, ctx) => HandleMakeNextAction(s, sel, ctx)
    case CreateAndMove(sel, name, description, id, now) =>
      HandleCreateNewProject(s, sel, name, description, id, now)
    case TickNextAction(id) => ToggleTaskComplete(s, id)
  }

  /** The store after a session of taps; a tap the screens do not offer in
      the current store has no effect. */
  function Run(s: Store, es: seq<Event>): Store
    decreases |es|
  {
    if es == [] then s
    else Run(if Enabled(s, es[0]) then Step(s, es[0]) else s, es[1..])
  }

  /** The taps offered are exactly those on rows the screens list: Delete
      and Process sit on inbox rows, the process modal offers the listed
      projects and context labels, Create & Move processes the selected
      inbox row into a project under a fresh id, and a next action can be ticked when it
      is on the Next Actions list under the 'all' chips. */
  lemma EnabledOnListedRows(s: Store, e: Event)
    ensures e.DeleteRow? ==>
      (Enabled(s, e) <==> exists t :: t in InboxTasks(s.tasks) && t.id == e.id)
    ensures e.MoveSelected? ==>
      (Enabled(s, e) <==>
        && (exists t :: t in InboxTasks(s.tasks) && t.id == e.selected)
        && (exists p :: p in s.projects && p.id == e.pid))
    ensures e.MakeSelectedNext? ==>
      (Enabled(s, e) <==>
        (exists t :: t in InboxTasks(s.tasks) && t.id == e.selected) && e.ctx in s.contexts)
    ensures e.TickNextAction? ==>
      (Enabled(s, e) <==> exists t :: t in FilteredNextActions(s.tasks, All, All) && t.id == e.id)
    ensures e.CreateAndMove? ==>
      (Enabled(s, e) <==>
        (exists t :: t in InboxTasks(s.tasks) && t.id == e.selected) && !HasProject(s.projects, e.id))
  {
    match e
    case DeleteRow(id) => InboxRowListed(s.tasks, id);
    case MoveSelected(sel, pid) => InboxRowListed(s.tasks, sel); ProjectListed(s.projects, pid);
    case MakeSelectedNext(sel, _) => InboxRowListed(s.tasks, sel);
    case TickNextAction(id) => NextActionRowListed(s.tasks, id);
    case AddTyped(_, _, _) =>
    case CreateAndMove(sel, _, _, _, _) => InboxRowListed(s.tasks, sel);
  }

  lemma InboxRowListed(ts: seq<Task>, id: Id)
    ensures InInbox(ts, id) <==> exists t :: t in InboxTasks(ts) && t.id == id
  {
    if InInbox(ts, id) {
      var i :| 0 <= i < |ts| && ts[i].id == id && ts[i].status == Inbox;
      assert ts[i] in InboxTasks(ts);
    }
    if exists t :: t in InboxTasks(ts) && t.id == id {
      var t :| t in InboxTasks(ts) && t.id == id;
      var i :| 0 <= i < |ts| && ts[i] == t;
      assert InInbox(ts, id);
    }
  }

  lemma NextActionRowListed(ts: seq<Task>, id: Id)
    ensures IsNextActionRow(ts, id) <==> exists t :: t in FilteredNextActions(ts, All, All) && t.id == id
  {
    if IsNextActionRow(ts, id) {
      var i :| 0 <= i < |ts| && ts[i].id == id && ts[i].status == NextAction;
      assert ts[i] in FilteredNextActions(ts, All, All);
    }
    if exists t :: t in FilteredNextActions(ts, All, All) && t.id == id {
      var t :| t in FilteredNextActions(ts, All, All) && t.id == id;
      var i :| 0 <= i < |ts| && ts[i] == t;
      assert IsNextActionRow(ts, id);
    }
  }

  lemma ProjectListed(ps: seq<Project>, id: Id)
    ensures HasProject(ps, id) <==> exists p :: p in ps && p.id == id
  {
    if HasProject(ps, id) {
      var j :| 0 <= j < |ps| && ps[j].id == id;
      assert ps[j] in ps;
    }
  }

  /** A task's optional fields match its status: inbox tasks carry neither
      a context nor a project and are not completed; next actions carry a
      context and no project; project tasks carry a project, no context,
      and are not completed. */
  predicate Consistent(t: Task) {
    match t.status
    case Inbox => t.context == None && t.projectId == None && !t.completed
    case NextAction => t.context.Some? && t.projectId == None
    case InProject => t.context == None && t.projectId.Some? && !t.completed
  }

  predicate RefsResolve(s: Store) {
    forall t :: t in s.tasks && t.projectId.Some? ==> HasProject(s.projects, t.projectId.value)
  }

  /** Unique ids, consistent tasks, and every project reference resolves. */
  predicate Good(s: Store) {
    && Valid(s)
    && (forall t :: t in s.tasks ==> Consistent(t))
    && RefsResolve(s)
  }

  /** The store the app seeds itself with: one inbox task, one next action
      under '@phone', one project no task references yet, and the five
      context labels. */
  function Seed(now: string): (r: Store)
    ensures Good(r) && |r.tasks| == 2
    ensures InboxTasks(r.tasks) == [r.tasks[0]] && r.tasks[0].id == "1"
    ensures NextActionTasks(r.tasks) == [r.tasks[1]] && r.tasks[1].context == Some("@phone")
    ensures |r.projects| == 1 && ProjectTasks(r.tasks, r.projects[0].id) == []
    ensures |r.contexts| == 5
  {
    var inbox := Task("1", "Review quarterly reports", Inbox, None, None, false, now);
    var next := Task("2", "Call dentist for appointment", NextAction, Some("@phone"), None, false, now);
    FilterAppend([inbox], [next], IsInbox);
    FilterAppend([inbox], [next], IsNextAction);
    FilterAppend([inbox], [next], (t: Task) => t.projectId == Some("1"));
    Store(
      [inbox, next],
      [Project("1", "Website Redesign", "Redesign company website with new branding", now)],
      ["@computer", "@home", "@errands", "@phone", "@office"])
  }

  // ------------------------------------------------------ one step at a time

  lemma AddTypedKeepsGood(s: Store, input: string, id: Id, now: string)
    requires Good(s) && !HasTask(s.tasks, id)
    ensures Good(HandleAddTask(s, input, id, now))
  {
    if !AllWhitespace(input) {
      AddTaskKeepsValid(s, id, Trim(input), now);
      var r := HandleAddTask(s, input, id, now);
      assert r.tasks == s.tasks + [r.tasks[|s.tasks|]];
    }
  }

  lemma DeleteKeepsGood(s: Store, id: Id)
    requires Good(s)
    ensures Good(DeleteTask(s, id))
  {
    DeleteTaskKeepsValid(s, id);
  }

  /** With unique ids, the inbox row the user picked is the only task
      carrying its id. */
  lemma OnlyIndex(ts: seq<Task>, id: Id, k: nat, i: nat)
    requires UniqueTaskIds(ts) && k < |ts| && i < |ts| && ts[k].id == id && ts[i].id == id
    ensures i == k
  {
  }

  predicate RefResolves(s: Store, t: Task) {
    t.projectId.Some? ==> HasProject(s.projects, t.projectId.value)
  }

  /** An update of one task (ids are unique) keeps the store good as long as
      the merged task is consistent and its project reference resolves. */
  lemma UpdateOneKeepsGood(s: Store, k: nat, p: Patch)
    requires Good(s) && k < |s.tasks|
    requires Consistent(Merge(s.tasks[k], p)) && RefResolves(s, Merge(s.tasks[k], p))
    ensures Good(UpdateTask(s, s.tasks[k].id, p))
  {
    var id := s.tasks[k].id;
    var r := UpdateTask(s, id, p);
    UpdateTaskKeepsValid(s, id, p);
    forall t | t in r.tasks ensures Consistent(t) && RefResolves(r, t) {
      var i :| 0 <= i < |r.tasks| && r.tasks[i] == t;
      assert s.tasks[i] in s.tasks;
      if s.tasks[i].id == id {
        OnlyIndex(s.tasks, id, k, i);
      }
    }
  }

  lemma MoveKeepsGood(s: Store, sel: Id, pid: Id)
    requires Good(s) && InInbox(s.tasks, sel) && HasProject(s.projects, pid)
    ensures Good(HandleMoveToProject(s, sel, pid))
  {
    var k :| 0 <= k < |s.tasks| && s.tasks[k].id == sel && s.tasks[k].status == Inbox;
    assert s.tasks[k] in s.tasks;
    UpdateOneKeepsGood(s, k, MovePatch(pid));
  }

  lemma MakeNextKeepsGood(s: Store, sel: Id, ctx: string)
    requires Good(s) && InInbox(s.tasks, sel)
    ensures Good(HandleMakeNextAction(s, sel, ctx))
  {
    var k :| 0 <= k < |s.tasks| && s.tasks[k].id == sel && s.tasks[k].status == Inbox;
    assert s.tasks[k] in s.tasks;
    UpdateOneKeepsGood(s, k, NextActionPatch(ctx));
  }

  lemma CreateAndMoveKeepsGood(s: Store, sel: Id, name: string, description: string, id: Id, now: string)
    requires Good(s) && InInbox(s.tasks, sel) && !HasProject(s.projects, id)
    ensures Good(HandleCreateNewProject(s, sel, name, description, id, now))
  {
    if !AllWhitespace(name) {
      var s1 := AddProject(s, id, Trim(name), Trim(description), now).0;
      AddProjectKeepsValid(s, id, Trim(name), Trim(description), now);
      assert HasProject(s1.projects, id) by {
        assert s1.projects[|s.projects|].id == id;
      }
      forall x | HasProject(s.projects, x) ensures HasProject(s1.projects, x) {
        var j :| 0 <= j < |s.projects| && s.projects[j].id == x;
        assert s1.projects[j] == s.projects[j];
      }
      assert Good(s1);
      MoveKeepsGood(s1, sel, id);
    }
  }

  lemma TickKeepsGood(s: Store, id: Id)
    requires Good(s) && IsNextActionRow(s.tasks, id)
    ensures Good(ToggleTaskComplete(s, id))
  {
    var k :| 0 <= k < |s.tasks| && s.tasks[k].id == id && s.tasks[k].status == NextAction;
    assert s.tasks[k] in s.tasks;
    var f := Find(s.tasks, id).value;
    OnlyIndex(s.tasks, id, k, f);
    UpdateOneKeepsGood(s, k, Patch(Keep, Keep, Keep, Keep, Set(!s.tasks[k].completed)));
  }

  /** Every tap the screens offer keeps the store good. */
  lemma StepKeepsGood(s: Store, e: Event)
    requires Good(s) && Enabled(s, e)
    ensures Good(Step(s, e))
  {
    match e
    case AddTyped(input, id, now) => AddTypedKeepsGood(s, input, id, now);
    case DeleteRow(id) => DeleteKeepsGood(s, id);
    case MoveSelected(sel, pid) => MoveKeepsGood(s, sel, pid);
    case MakeSelectedNext(sel, ctx) => MakeNextKeepsGood(s, sel, ctx);
    case CreateAndMove(sel, name, description, id, now) =>
      CreateAndMoveKeepsGood(s, sel, name, description, id, now);
    case TickNextAction(id) => TickKeepsGood(s, id);
  }

  lemma {:induction false} RunKeepsGood(s: Store, es: seq<Event>)
    requires Good(s)
    ensures Good(Run(s, es))
    decreases |es|
  {
    if es != [] {
      var s1 := if Enabled(s, es[0]) then Step(s, es[0]) else s;
      if Enabled(s, es[0]) {
        StepKeepsGood(s, es[0]);
      }
      RunKeepsGood(s1, es[1..]);
    }
  }

  // ------------------------------------------------------------ consequences

  /** In a good store no next action carries a project, so the Next Actions
      screen shows nothing once a project chip is selected. */
  lemma ProjectChipSelectsNothing(s: Store, ctx: Selector, pid: Id)
    requires Good(s)
    ensures FilteredNextActions(s.tasks, ctx, Only(pid)) == []
  {
    var na := NextActionTasks(s.tasks);
    var keep := (t: Task) => ChipsMatch(t, ctx, Only(pid));
    forall i | 0 <= i < |na| ensures !keep(na[i]) {
      assert na[i] in na;
      assert Consistent(na[i]);
    }
    FilterKeepsNone(na, keep);
  }

  /** In a good store only project tasks reference a project, and those are
      never completed, so every project card shows 0%. */
  lemma ProgressStaysZero(s: Store, pid: Id)
    requires Good(s)
    ensures Progress(s.tasks, pid) == 0
  {
    forall t | t in s.tasks && t.projectId == Some(pid) ensures !t.completed {
      assert Consistent(t);
    }
    ProgressNoneCompleted(s.tasks, pid);
  }

  /** Whatever the user taps, starting from the seeded store: ids stay
      unique, fields stay consistent with status, project references
      resolve, the project chip empties the Next Actions list and every
      project shows 0%. */
  lemma Reachable(now: string, es: seq<Event>, ctx: Selector, pid: Id)
    ensures Good(Run(Seed(now), es))
    ensures FilteredNextActions(Run(Seed(now), es).tasks, ctx, Only(pid)) == []
    ensures Progress(Run(Seed(now), es).tasks, pid) == 0
  {
    RunKeepsGood(Seed(now), es);
    ProjectChipSelectsNothing(Run(Seed(now), es), ctx, pid);
    ProgressStaysZero(Run(Seed(now), es), pid);
  }

  /** A project id that no project carries is referenced by no task. */
  lemma FreshProjectUnreferenced(s: Store, id: Id)
    requires RefsResolve(s) && !HasProject(s.projects, id)
    ensures forall i :: 0 <= i < |s.tasks| ==> s.tasks[i].projectId != Some(id)
  {
    forall i | 0 <= i < |s.tasks| ensures s.tasks[i].projectId != Some(id) {
      assert s.tasks[i] in s.tasks;
    }
  }

  /** After "Create & Move Task" on the inbox row at index `k`, that row's
      task is the only one referencing the new project. */
  lemma CreatedProjectHoldsOneTask(s: Store, k: nat, name: string, description: string, id: Id, now: string)
    requires Good(s) && k < |s.tasks| && s.tasks[k].status == Inbox && !HasProject(s.projects, id)
    requires !AllWhitespace(name)
    ensures var r := HandleCreateNewProject(s, s.tasks[k].id, name, description, id, now);
      ProjectTasks(r.tasks, id) == [s.tasks[k].(status := InProject, projectId := Some(id))]
  {
    var sel := s.tasks[k].id;
    var r := HandleCreateNewProject(s, sel, name, description, id, now);
    FreshProjectUnreferenced(s, id);
    CreateNewProjectMovesOne(s, k, name, description, id, now);
    var keep := (t: Task) => t.projectId == Some(id);
    var before, after := r.tasks[..k], r.tasks[k + 1..];
    assert r.tasks == before + [r.tasks[k]] + after;
    forall i | 0 <= i < |before| ensures !keep(before[i]) {
      assert before[i] == r.tasks[i];
    }
    forall i | 0 <= i < |after| ensures !keep(after[i]) {
      assert after[i] == r.tasks[k + 1 + i];
    }
    FilterPicksOne(before, r.tasks[k], after, keep);
  }

  /** "Create & Move Task" on an inbox row with a usable name: the selected
      task leaves the inbox, and the new project's card counts exactly that
      one task, none completed, 0%. */
  lemma CreateAndMoveCard(s: Store, k: nat, name: string, description: string, id: Id, now: string)
    requires Good(s) && k < |s.tasks| && s.tasks[k].status == Inbox && !HasProject(s.projects, id)
    requires !AllWhitespace(name)
    ensures var r := HandleCreateNewProject(s, s.tasks[k].id, name, description, id, now);
      && (forall t :: t in InboxTasks(r.tasks) ==> t.id != s.tasks[k].id)
      && RowFor(r.tasks, r.projects[|s.projects|]) == ProjectRow(r.projects[|s.projects|], 1, 0, 0)
  {
    var r := HandleCreateNewProject(s, s.tasks[k].id, name, description, id, now);
    CreatedProjectHoldsOneTask(s, k, name, description, id, now);
    assert s.tasks[k] in s.tasks;
    assert r.projects[|s.projects|].id == id;
    var pt := ProjectTasks(r.tasks, id);
    assert CompletedCount(pt) == 0;
  }
}
